=== FILE: README.md ===
# Kanban board: view-model, task handlers, session store and route gate

A model, in Dafny, of the logic inside a small React + Firebase kanban board.
Users sign in, then create, edit, drag between columns and delete tasks, and
each change is written to an activity log. Almost all of the application is UI
and remote-store glue. The model covers the three pieces that hold decisions:

- **The board view-model** (`src/pages/Dashboard.jsx`). This covers the task
  schema and the derivation of the visible list: a case-insensitive title
  search, a priority filter, then a sort by due date ascending or descending.
  It covers the grouping into the To Do / In Progress / Done columns. It also
  covers the handlers for drag-and-drop move, delete, edit and create, plus the
  activity-log entry and the newest-first log listing.
- **The session store** (`src/store/authStore.js`). The state is
  `{user, loading}`. Signup, signin, logout and identity-change notifications
  move it from one state to the next.
- **The route gate** (`src/components/ProtectedRoute.jsx`). It shows a loading
  placeholder, redirects to `/signin`, or renders the dashboard.

Modules, one per file:

| file | module | models |
|---|---|---|
| wrappers.dfy | `Wrappers` | `Option` (JavaScript `undefined`/`null`) and `Result` (throw) |
| text.dfy | `Text` | ASCII `toLowerCase` and `String.prototype.includes` |
| seqs.dfy | `Seqs` | `Array.prototype.filter`, with the positions it keeps |
| sorting.dfy | `Sorting` | a stable sort driven by the date-difference comparator |
| tasks.dfy | `Tasks` | the task record, the status/priority enums, the form schema |
| board_view.dfy | `BoardView` | the `filteredTasks` pipeline and the three columns |
| task_store.dfy | `TaskStore` | the task collection as a map from id to task, and the writes to it |
| activity_log.dfy | `ActivityLog` | log entries, the actor label, the newest-first listing |
| task_actions.dfy | `TaskActions` | `moveTask`, `deleteTask`, `updateTask`, the card editor, `onSubmit` |
| session.dfy | `Session` | the auth store's state machine |
| route_gate.dfy | `RouteGate` | `ProtectedRoute` |
| walkthrough.dfy | `Walkthrough` | create "Write spec", see it in To Do, drag it to Done |

Modelling choices:

- The store is schemaless. So a listed task keeps `status` and `priority` as
  the text that was stored, and its `title` may be missing. A status outside
  the three names (an absent field included) is representable, and such a task
  belongs to no column.
- The view controls `search`, `sortOrder`, `filterPriority` and `filterStatus`
  are the strings the code compares. `sortOrder` selects ascending only when it
  is exactly `"asc"`.
- A due date is the day number it denotes and a log timestamp is the instant
  it denotes, both as integers. Either is `None` when the value is missing or
  cannot be parsed.
- The comparator follows the code: `a - b` (or `b - a`). A missing date gives
  NaN, and the sort reads NaN as "equal", so `Sorting.Compare` answers 0.
  `Array.prototype.sort` is stable. For a consistent comparator it therefore
  yields exactly the stable insertion sort modelled here.
- Each handler is a single synchronous step. The remote write it issues and the
  log message it requests are returned as data. Whether the write succeeds is a
  boolean input: a rejected write throws and skips the log.
- The loading flag and the local task list that `moveTask` reads through refs
  are plain inputs.
- The id `addDoc` assigns is an input to `TaskActions.SubmitTask`. The store
  always picks an id no document has, and `TaskActions.CreateConverges` takes
  that as its precondition.
- Provider calls (create account, sign in, sign out, identity change) are
  inputs to the session machine, given as their resolved value or their error.
- The creation form's schema requires a non-empty title (`Dashboard.jsx`
  line 17), but the card editor (lines 362-369) sends its title unchecked, so an
  edit can store an empty title (`TaskActions.EditSkipsSchema`).

## Model

| member | source | states |
|---|---|---|
| Tasks.Validate | src/pages/Dashboard.jsx:16-22 | A form is accepted iff it has a title of length at least 1, a priority among Low/Medium/High and a status among To Do/In Progress/Done. Description and due date are free. On success the parsed value carries the form's fields. On failure there is one issue per failing field and none for a passing field. |
| Tasks.AcceptedFormRoundTrip | src/pages/Dashboard.jsx:16-22 | An accepted form is exactly the form of its parsed value. |
| Tasks.InputRoundTrip | src/pages/Dashboard.jsx:16-22 | Every parsed value with a non-empty title validates back to itself. |
| Tasks.ParseStatus | src/pages/Dashboard.jsx:21 | A stored status is read as one of the enum values iff it is "To Do", "In Progress" or "Done", and the value's name is that text. |
| Tasks.ParsePriority | src/pages/Dashboard.jsx:20 | A stored priority is read as one of the enum values iff it is "Low", "Medium" or "High", and the value's name is that text. |
| Tasks.StatusNameRoundTrip | src/pages/Dashboard.jsx:21 | Reading back the stored name of a status gives that status. |
| Tasks.PriorityNameRoundTrip | src/pages/Dashboard.jsx:20 | Reading back the stored name of a priority gives that priority. |
| Tasks.StatusNameInjective | src/pages/Dashboard.jsx:289 | Different statuses have different names, so a task names at most one column. |
| Text.LowerChar | src/pages/Dashboard.jsx:169 | ASCII case folding maps 'A'..'Z' to the letter 32 code points higher and leaves every other character alone. |
| Text.Lower | src/pages/Dashboard.jsx:169 | Lower-casing keeps the length and folds each character on its own. |
| Text.LowerIsLower | src/pages/Dashboard.jsx:169 | No upper-case ASCII letter survives lower-casing. |
| Text.LowerIdempotent | src/pages/Dashboard.jsx:169 | Lower-casing twice is lower-casing once. |
| Text.Includes | src/pages/Dashboard.jsx:169 | `includes` is true iff the needle occurs at some position of the haystack. |
| Text.IncludesEmpty | src/pages/Dashboard.jsx:169 | Every string includes the empty string. |
| Seqs.Filter | src/pages/Dashboard.jsx:169-172 | A filter keeps only elements satisfying the predicate, and keeps each satisfying element with its full multiplicity. |
| Seqs.FilterMembership | src/pages/Dashboard.jsx:169-172 | An element is kept iff it is in the input and satisfies the predicate. |
| Seqs.KeptIndicesSpec | src/pages/Dashboard.jsx:334-335 | The filter keeps exactly the positions whose element satisfies the predicate, in increasing order. |
| Seqs.FilterIsSubsequence | src/pages/Dashboard.jsx:334-335 | A filter's output is a subsequence of its input: nothing is reordered. |
| Seqs.FilterFilter | src/pages/Dashboard.jsx:167-172 | Two chained filters equal one filter by the conjunction of their predicates. |
| Seqs.SubsequenceTransitive | src/pages/Dashboard.jsx:167-172 | A subsequence of a subsequence is a subsequence, so the two chained filters keep input order. |
| Sorting.Insert | src/pages/Dashboard.jsx:175-181 | Inserting adds exactly one occurrence of the element. |
| Sorting.Compare | src/pages/Dashboard.jsx:175-181 | With both dates present the comparator is negative iff the first date is earlier (ascending) or later (descending), and positive in the converse case. With a date missing the difference is NaN, read as 0. |
| Sorting.CompareAntisymmetric | src/pages/Dashboard.jsx:177-179 | Swapping the arguments negates the comparator, and the descending comparator is the ascending one on swapped arguments. |
| Sorting.SortBy | src/pages/Dashboard.jsx:175-181 | The sort is a permutation of its input. |
| Sorting.InsertSorted | src/pages/Dashboard.jsx:175-181 | Inserting a keyed element into a sorted list keeps it sorted. |
| Sorting.SortBySorted | src/pages/Dashboard.jsx:175-181 | When every element has a key, the sort orders the list by key: non-decreasing ascending, non-increasing descending. |
| Sorting.OppositeOrders | src/pages/Dashboard.jsx:175-181 | When every element has a key, two elements with different keys come in one relative order under the ascending sort and in the other under the descending sort. |
| Sorting.NewestFirst | src/pages/Dashboard.jsx:84 | An element whose key is strictly greater than every other comes first in a descending sort. |
| BoardView.FilteredTasks | src/pages/Dashboard.jsx:167-181 | Each task appears in the visible list as often as on the board if it matches the search and the priority filter, and not at all otherwise. |
| BoardView.MatchesSearch | src/pages/Dashboard.jsx:169 | A task passes the search iff it has a title whose lower-cased form contains the lower-cased term at some position. With an empty term, exactly the titled tasks pass. |
| BoardView.MatchesPriority | src/pages/Dashboard.jsx:172 | "All" passes every task. Any other value passes exactly the tasks stored with that priority text, so a value outside the three priorities hides every task with a valid priority. |
| BoardView.FilteredMembership | src/pages/Dashboard.jsx:167-172 | A task is visible iff it is on the board, has a title whose lower-cased form contains the lower-cased search, and has the selected priority or the filter is "All". |
| BoardView.FilteredIsPermutation | src/pages/Dashboard.jsx:167-181 | The visible list is a permutation of the filtered list, and the filtered list is a subsequence of the board. |
| BoardView.EmptySearchKeepsTitled | src/pages/Dashboard.jsx:169 | With an empty search and priority "All", exactly the tasks that have a title are visible. |
| BoardView.SearchIgnoresCase | src/pages/Dashboard.jsx:169 | A search term and its lower-cased form give the same visible list. |
| BoardView.FilterSamePredicate | src/pages/Dashboard.jsx:169 | Filters by pointwise-equal predicates give the same list. |
| BoardView.StatusFilterIgnored | src/pages/Dashboard.jsx:35 | The status filter has no effect on the visible list. |
| BoardView.FilteredSortedByDueDate | src/pages/Dashboard.jsx:175-181 | When every visible task has a due date, the visible list is non-decreasing by due date for "asc" and non-increasing for any other order. Hidden tasks may be undated. |
| BoardView.DueDatesInOrder | src/pages/Dashboard.jsx:176-180 | A list sorted by due date is non-decreasing for "asc" and non-increasing for any other order. |
| BoardView.MatchingDated | src/pages/Dashboard.jsx:167-172 | On a board whose tasks all have due dates, every visible task has one. |
| BoardView.ToggleReverses | src/pages/Dashboard.jsx:175-181 | When every visible task is dated, a task with an earlier due date precedes a later one under "asc" and follows it under "desc". |
| BoardView.Column | src/pages/Dashboard.jsx:334-335 | A column holds exactly the tasks whose stored status is the column's name, with their multiplicities. |
| BoardView.Columns | src/pages/Dashboard.jsx:289 | There are three columns. |
| BoardView.ColumnContents | src/pages/Dashboard.jsx:334-335 | Each column holds exactly the visible tasks of its status, in visible order. |
| BoardView.ColumnAt | src/pages/Dashboard.jsx:289-297 | The i-th column is the column of the i-th status over the visible list. |
| BoardView.ColumnCounts | src/pages/Dashboard.jsx:289 | Over any list, the three column counts of a task add up to its count if its status is an enum name and to zero otherwise. |
| BoardView.ColumnsPartition | src/pages/Dashboard.jsx:289 | Each visible task with an enum status is shown exactly as often as it is visible, summed over the three columns. Any other task is in none. |
| BoardView.ColumnExclusive | src/pages/Dashboard.jsx:334-335 | No task is in the columns of two different statuses. |
| BoardView.ColumnsDisjoint | src/pages/Dashboard.jsx:289 | The three columns are pairwise disjoint. |
| BoardView.OutsideEnumInNoColumn | src/pages/Dashboard.jsx:334-335 | A task whose status is not one of the three names appears in no column. |
| TaskActions.FindIndex | src/pages/Dashboard.jsx:151 | `find` returns the first position holding the id, or nothing exactly when no task has it. |
| TaskActions.Find | src/pages/Dashboard.jsx:135 | `find` returns the first task of the list with the id, or nothing exactly when no task has it. |
| TaskActions.Relabel | src/pages/Dashboard.jsx:155-157 | The optimistic update keeps the length and every id. Each task with the id takes the new status and keeps its other fields, and every other task is unchanged. |
| TaskActions.MoveMessage | src/pages/Dashboard.jsx:161 | The move message is exactly `Moved "<title>" to ` followed by the full name of the target column and then ` by <actor>`. The actor is the display name, else the e-mail. |
| TaskActions.MoveMessageNamesStatus | src/pages/Dashboard.jsx:161 | Moves of the same card by the same user to different columns log different messages. |
| TaskActions.MoveTask | src/pages/Dashboard.jsx:147-163 | While loading, or when no task has the id, nothing changes and nothing is written or logged. Otherwise the length is kept. Every task with the id gets the new status and every other task and field is unchanged. The status write is issued, and `Moved "<title>" to <status> by <name>` is logged iff the write succeeded and a user is signed in. |
| TaskActions.MoveConverges | src/pages/Dashboard.jsx:155-162 | If the local list was a listing of the store and the status write succeeds, the optimistic list is a listing of the store after the write. |
| TaskActions.RejectedMoveDiverges | src/pages/Dashboard.jsx:155-162 | If the status write is rejected, the optimistic change is not rolled back: a task whose status changes stops matching the store. |
| TaskActions.RelabelMirrors | src/pages/Dashboard.jsx:155-160 | Relabelling a listing lists the store with the same document relabelled. |
| TaskActions.DeleteTask | src/pages/Dashboard.jsx:133-144 | For an absent id nothing is deleted or logged. For a present id the delete is issued, and `Task "<title>" deleted.` is logged iff it succeeded. The local list is untouched. |
| TaskActions.Without | src/pages/Dashboard.jsx:137-139 | After a delete, a task is listed iff it was listed before and has a different id. The remaining tasks keep their relative order. |
| TaskActions.SubsequenceDistinctIds | src/pages/Dashboard.jsx:65-66 | Dropping tasks from a list that names each document once leaves a list that names each document once. |
| TaskActions.WithoutMirrors | src/pages/Dashboard.jsx:137-139 | Dropping an id from a listing lists the store without that document. |
| TaskActions.DeleteConverges | src/pages/Dashboard.jsx:137-139 | After a successful delete is applied the document is gone, and the refetched list is the old list without it. |
| TaskActions.AddMirrors | src/pages/Dashboard.jsx:110-112 | Adding a document under a fresh id to a listed store is listed by appending the document. |
| TaskActions.CreateConverges | src/pages/Dashboard.jsx:107-112 | When a valid form is submitted by a signed-in user, the write succeeds and the store assigns an unused id, the store then holds the new task under that id, and the previous listing followed by the new task is a listing of the store. |
| TaskStore.Merge | src/pages/Dashboard.jsx:122 | An edit sets title, description, due date and priority from the payload and keeps id, status and creator. |
| TaskStore.Apply | src/pages/Dashboard.jsx:110-160 | `addDoc` stores the task under its id. `updateDoc` keeps the key set and rewrites only the addressed document, by status or by merge, and changes nothing when it is missing. `deleteDoc` removes only the addressed key. Every other document is unchanged. |
| TaskStore.EditKeepsStatus | src/pages/Dashboard.jsx:122 | Applying an edit adds or removes no document, changes no document's status, and leaves every other document as it was. |
| TaskStore.ApplyWellKeyed | src/pages/Dashboard.jsx:110 | Every write keeps each document under its own id. |
| TaskActions.UnchangedEditIsIdentity | src/pages/Dashboard.jsx:357-369 | Saving the editor without changes writes back exactly the stored task. |
| TaskActions.EditSkipsSchema | src/pages/Dashboard.jsx:362-369 | The editor can store an empty title that the creation schema would refuse. |
| TaskActions.UpdateTask | src/pages/Dashboard.jsx:120-128 | Saving writes the four edited fields of the id. It logs `Task updated: <title>` iff the write succeeded, and leaves the local list alone. |
| TaskActions.SubmitTask | src/pages/Dashboard.jsx:107-117 | A form failing the schema, or a submit with no signed-in user, does nothing. Otherwise the task is written with the form's fields, the assigned id and the creator's uid, and `Task "<title>" created.` is logged iff the write succeeded. |
| TaskActions.CreatedTaskSatisfiesSchema | src/pages/Dashboard.jsx:107-110 | Every created task, read back as a form, passes the schema. |
| TaskActions.MoveEntryNamesActor | src/pages/Dashboard.jsx:94-98 | The intended entry written for a move names, in `updatedBy`, the same actor as the end of the move message. |
| ActivityLog.ActorLabel | src/pages/Dashboard.jsx:161 | The actor is the display name unless it is absent or empty, otherwise the e-mail. |
| ActivityLog.UpdatedByAsWritten | src/pages/Dashboard.jsx:97 | As written, the entry's actor label is the e-mail whenever a user is signed in, and absent otherwise. |
| ActivityLog.UpdatedBy | src/pages/Dashboard.jsx:97 | The intended actor label is the display name or e-mail of the signed-in user, and absent otherwise. |
| ActivityLog.AsWrittenIgnoresDisplayName | src/pages/Dashboard.jsx:97 | For a user with display name "Ann", the entry as written says "ann@example.com" while the move message and the intended entry say "Ann". |
| ActivityLog.NewEntry | src/pages/Dashboard.jsx:94-98 | As written, an entry carries the message, the current time, the e-mail of the signed-in user, and no label when no one is signed in. |
| ActivityLog.NewEntryIntended | src/pages/Dashboard.jsx:94-98 | The intended entry carries the message, the current time and the signed-in user's display name, else e-mail, and no label when no one is signed in. |
| ActivityLog.NewEntryAgreesIff | src/pages/Dashboard.jsx:97 | The entry as written equals the intended entry iff no one is signed in or the user's label (display name, else e-mail) is the e-mail. |
| ActivityLog.ListLogs | src/pages/Dashboard.jsx:84 | The listing is a permutation of the stored entries. |
| ActivityLog.ListLogsNewestFirst | src/pages/Dashboard.jsx:83-84 | When all entries have timestamps, the listing is non-increasing by timestamp. |
| ActivityLog.AppendedEntryListedFirst | src/pages/Dashboard.jsx:99-100 | An entry written after every listed one is listed first. |
| Session.Step | src/store/authStore.js:17-55 | A resolved signup or signin sets the user to the provider's user. A resolved logout clears it, and none of these three touches `loading`. A rejected call rethrows the provider's error. A notification sets the user to its value and `loading` to false. |
| Session.Next | src/store/authStore.js:17-55 | After any action, `loading` is true iff it was true and the action is not a notification. A notification sets the user. A resolved signup or signin sets the user to the provider's user and a resolved logout clears it. A rejected call keeps the user. |
| Session.FailureKeepsState | src/store/authStore.js:21-24 | A rejected call leaves the state unchanged and is never a notification. |
| Session.LoadingNeverReturns | src/store/authStore.js:12-56 | Once `loading` is false, no action sets it back to true. |
| Session.RunAppend | src/store/authStore.js:12-56 | Running one more action is one more step. |
| Session.RunLoading | src/store/authStore.js:14 | After a run, `loading` is false iff it started false or some notification arrived. |
| Session.RunUser | src/store/authStore.js:20-52 | After a run, the user is the one set by the last non-rejected user-changing action, or the initial user if there is none. |
| RouteGate.Gate | src/components/ProtectedRoute.jsx:5-12 | The placeholder is shown iff loading. The redirect to `/signin` happens iff not loading and no user. The children render iff not loading and a user is present. |
| RouteGate.ChildrenReachable | src/components/ProtectedRoute.jsx:8-11 | From the initial state, the dashboard renders iff some notification arrived and the latest identity is present. |
| RouteGate.SigninAloneStaysLoading | src/components/ProtectedRoute.jsx:8 | Before any notification the gate shows the placeholder, even after a successful signin. |
| RouteGate.SigninThenWait | src/store/authStore.js:31 | After signin alone the placeholder shows. After signin and then a notification with that user, the dashboard shows. |
| Walkthrough.CreateWriteSpec | src/pages/Dashboard.jsx:107-111 | Submitting the "Write spec" form writes that task and logs `Task "Write spec" created.`. |
| Walkthrough.TitledTaskShown | src/pages/Dashboard.jsx:289-335 | On the initial view, every task on the board that has a title is shown in the column of its status. |
| Walkthrough.WriteSpecMoveMessage | src/pages/Dashboard.jsx:161 | The move message for the scenario is `Moved "Write spec" to Done by Ann`. |
| Walkthrough.MoveWriteSpec | src/pages/Dashboard.jsx:147-161 | Dragging "Write spec" to Done relabels it, writes the status and logs the move. |
| Walkthrough.CreateThenMove | src/pages/Dashboard.jsx:107-163 | Create, show in To Do, drag to Done and show in Done, with the store listing the created task. |

## Left out

- Firestore I/O is not modelled. That covers `getDocs`, `addDoc`, `updateDoc`, `deleteDoc`, the refetch after each mutation, and `fetchTasks` setting the loading flag. The store is a map, and a refetch is related to it only by `TaskStore.Mirrors`: every document is listed exactly once, in some order. A write's success is an input.
- TaskActions.UpdateTask: whether the write succeeds is not tied to the document existing. `updateDoc` on a missing document rejects, but the model lets `writeOk` be true and log "Task updated: …" while `TaskStore.Apply` leaves the store unchanged. No proved property relies on that combination.
- The log write inside `logActivity` can fail and is swallowed. The model returns the message a handler asks to log, not whether the log write succeeded.
- Firebase Auth calls are foreign. Only their outcomes (resolved user or rejection) enter `Session.Step`. The unsubscribe handle returned by `initAuth` is left out.
- React mechanics are left out: hooks, ref synchronisation timing, rendering, react-dnd, react-hook-form, `reset()` and the card's `isEditing` flag.
- The race between two near-simultaneous drops is concurrency, not stated behaviour. `moveTask` is one synchronous step.
- `Date` arithmetic is left out. Dates and timestamps are integers or `None`, with no parsing of date strings and no `toLocaleString`.
- BoardView.FilteredSortedByDueDate: the order is stated only when every visible due date is present. A missing date among the compared ones makes the JavaScript comparator inconsistent, and the engine's order is then implementation-defined.
- BoardView.ToggleReverses: stated only when every visible due date is present, for the same reason.
- Sorting.OppositeOrders: stated only when every element has a key, for the same reason.
- ActivityLog.ListLogsNewestFirst: the order is stated only when every timestamp is present, for the same reason.
- `toLowerCase` is modelled for ASCII only. Full Unicode case mapping is not.
- Firestore rejects `undefined` field values. This is covered only through the `writeOk` input and is not derived from the payload.
- `Signin.jsx`, `Signup.jsx`, `Navbar.jsx`, `App.jsx` and `vite.config.js` only call the store, navigate or configure, and are not modelled.

## Findings

| source | as written | input that shows it | evidently intended | confidence | as-written member | corrected member |
|---|---|---|---|---|---|---|
| src/pages/Dashboard.jsx:97 | `updatedBy: user?.name \|\| user?.email`. The identity object has `uid`, `email` and `displayName` but no `name`, so the label is always the e-mail. | A signed-in user with display name "Ann" and e-mail "ann@example.com" moves a task. The message ends "by Ann", but the entry's `updatedBy` is "ann@example.com". | The display name, else the e-mail, as the line's own comment says and as the move message at line 161 does. | medium; not executed | ActivityLog.UpdatedByAsWritten, ActivityLog.NewEntry, ActivityLog.AsWrittenIgnoresDisplayName | ActivityLog.UpdatedBy, ActivityLog.NewEntryIntended, TaskActions.MoveEntryNamesActor |

=== FILE: activity_log.dfy ===
/**
 * The activity log: entries recording who changed what, listed newest first.
 */
module ActivityLog {
  import opened Wrappers
  import opened Sorting
  import opened Session

  /** A stored log entry; the timestamp is the instant of writing, or None if absent. */
  datatype LogEntry = LogEntry(message: string, timestamp: Option<int>, updatedBy: Option<string>)

  /** How a template literal shows an absent value (the provider reports missing fields as null). */
  function Render(o: Option<string>): string {
    match o
    case Some(s) => s
    case None => "null"
  }

  /** `displayName || email`: the display name unless it is absent or empty, else the e-mail. */
  function ActorLabel(u: User): (r: Option<string>)
    ensures u.displayName.Some? && u.displayName.value != "" ==> r == u.displayName
    ensures (u.displayName.None? || u.displayName == Some("")) ==> r == u.email
  {
    if u.displayName.Some? && u.displayName.value != "" then u.displayName else u.email
  }

  /**
   * The actor label as the source computes it: `user?.name || user?.email`.
   * The identity object has `uid`, `email` and `displayName` but no `name`,
   * so the first operand is always undefined and the label is the e-mail.
   */
  function UpdatedByAsWritten(user: Option<User>): (r: Option<string>)
    ensures user.None? ==> r.None?
    ensures user.Some? ==> r == user.value.email
  {
    match user
    case None => None
    case Some(u) => u.email
  }

  /** The intended actor label: the display name or e-mail, as in the move message. */
  function UpdatedBy(user: Option<User>): (r: Option<string>)
    ensures user.None? ==> r.None?
    ensures user.Some? ==> r == ActorLabel(user.value)
  {
    match user
    case None => None
    case Some(u) => ActorLabel(u)
  }

  /** The entry `logActivity` appends, as written; `now` stands for the client clock. */
  function NewEntry(message: string, now: int, user: Option<User>): (e: LogEntry)
    ensures e.message == message && e.timestamp == Some(now)
    ensures user.None? ==> e.updatedBy.None?
    ensures user.Some? ==> e.updatedBy == user.value.email
  {
    LogEntry(message, Some(now), UpdatedByAsWritten(user))
  }

  /** The entry as the code evidently intends it: labelled like the move message. */
  function NewEntryIntended(message: string, now: int, user: Option<User>): (e: LogEntry)
    ensures e.message == message && e.timestamp == Some(now)
    ensures user.None? ==> e.updatedBy.None?
    ensures user.Some? ==> e.updatedBy == ActorLabel(user.value)
  {
    LogEntry(message, Some(now), UpdatedBy(user))
  }

  /**
   * The entry as written and the intended entry agree exactly when no one is
   * signed in or the user's label already is the e-mail (no display name, or an
   * empty one, or one equal to the e-mail).
   */
  lemma NewEntryAgreesIff(message: string, now: int, user: Option<User>)
    ensures NewEntry(message, now, user) == NewEntryIntended(message, now, user) <==>
      user.None? || ActorLabel(user.value) == user.value.email
  {
  }

  /**
   * A user with a display name is labelled by e-mail in the entry as written,
   * by display name in the move message and in the intended entry.
   */
  lemma AsWrittenIgnoresDisplayName()
    ensures var u := User("u1", Some("ann@example.com"), Some("Ann"));
      && UpdatedByAsWritten(Some(u)) == Some("ann@example.com")
      && ActorLabel(u) == Some("Ann")
      && NewEntry("m", 0, Some(u)).updatedBy == Some("ann@example.com")
      && NewEntryIntended("m", 0, Some(u)).updatedBy == Some("Ann")
      && NewEntry("m", 0, Some(u)) != NewEntryIntended("m", 0, Some(u))
  {
  }

  function Timestamp(e: LogEntry): Option<int> {
    e.timestamp
  }

  /** The listed entries, latest timestamp first. */
  function ListLogs(entries: seq<LogEntry>): (r: seq<LogEntry>)
    ensures multiset(r) == multiset(entries)
  {
    SortBy(entries, Timestamp, Descending)
  }

  /** With every timestamp present, the listing is newest first. */
  lemma ListLogsNewestFirst(entries: seq<LogEntry>)
    requires forall i :: 0 <= i < |entries| ==> entries[i].timestamp.Some?
    ensures var r := ListLogs(entries);
      forall i, j :: 0 <= i < j < |r| ==>
        && r[i].timestamp.Some? && r[j].timestamp.Some?
        && r[i].timestamp.value >= r[j].timestamp.value
  {
    SortBySorted(entries, Timestamp, Descending);
  }

  /** An entry written later than every listed one is shown first. */
  lemma AppendedEntryListedFirst(entries: seq<LogEntry>, e: LogEntry)
    requires forall i :: 0 <= i < |entries| ==> entries[i].timestamp.Some?
    requires e.timestamp.Some?
    requires forall i :: 0 <= i < |entries| ==> entries[i].timestamp.value < e.timestamp.value
    ensures |ListLogs(entries + [e])| > 0 && ListLogs(entries + [e])[0] == e
  {
    var all := entries + [e];
    forall y | y in all && y != e
      ensures Timestamp(y).value < Timestamp(e).value
    {
      assert y in entries;
    }
    NewestFirst(all, Timestamp, e);
  }
}

=== FILE: board_view.dfy ===
/**
 * The board's view-model: the search / priority / due-date pipeline that
 * produces the visible task list, and its grouping into the three columns.
 */
module BoardView {
  import opened Wrappers
  import opened Text
  import opened Seqs
  import opened Sorting
  import opened Tasks

  /**
   * The dashboard's view controls, as the strings the code compares:
   * `sortOrder` toggles between "asc" and "desc", `filterPriority` is "All"
   * or a priority name, and `filterStatus` is held but never consulted.
   */
  datatype ViewState = ViewState(search: string, sortOrder: string, filterStatus: string, filterPriority: string)

  const InitialView := ViewState("", "asc", "All", "All")

  /**
   * `task.title?.toLowerCase().includes(search?.toLowerCase())`: the title
   * exists and, lower-cased, contains the lower-cased search term somewhere.
   * An empty term matches every titled task.
   */
  function MatchesSearch(t: Task, term: string): (b: bool)
    ensures b <==> t.title.Some? && exists i :: OccursAt(Lower(t.title.value), Lower(term), i)
    ensures term == "" ==> (b <==> t.title.Some?)
  {
    if t.title.Some? then IncludesEmpty(Lower(t.title.value)); Includes(Lower(t.title.value), Lower(term))
    else false
  }

  /**
   * `filterPriority === "All" || task.priority === filterPriority`: "All"
   * passes every task; any other value passes exactly the tasks stored with
   * that text, so a value outside the three priorities hides every task whose
   * priority is one of them.
   */
  function MatchesPriority(t: Task, filterPriority: string): (b: bool)
    ensures filterPriority == "All" ==> b
    ensures filterPriority != "All" ==> (b <==> t.priority == filterPriority)
    ensures filterPriority != "All" && ParsePriority(filterPriority).None? && ParsePriority(t.priority).Some? ==> !b
  {
    filterPriority == "All" || t.priority == filterPriority
  }

  function DueKey(t: Task): Option<int> {
    t.dueDate
  }

  function OrderOf(sortOrder: string): Order {
    if sortOrder == "asc" then Ascending else Descending
  }

  /** The tasks that pass both filters, before sorting. */
  function Matching(tasks: seq<Task>, search: string, filterPriority: string): seq<Task> {
    var bySearch := Filter(tasks, t => MatchesSearch(t, search));
    Filter(bySearch, t => MatchesPriority(t, filterPriority))
  }

  /** The visible list: search filter, then priority filter, then sort by due date. */
  function FilteredTasks(tasks: seq<Task>, v: ViewState): (r: seq<Task>)
    ensures forall x :: multiset(r)[x] ==
                        if MatchesSearch(x, v.search) && MatchesPriority(x, v.filterPriority) then multiset(tasks)[x] else 0
  {
    SortBy(Matching(tasks, v.search, v.filterPriority), DueKey, OrderOf(v.sortOrder))
  }

  /**
   * Soundness and completeness of the two filters: a task is visible exactly
   * when it is on the board, has a title containing the search term up to
   * ASCII case, and has the selected priority unless the filter is "All".
   */
  lemma FilteredMembership(tasks: seq<Task>, v: ViewState, x: Task)
    ensures x in FilteredTasks(tasks, v) <==>
      && x in tasks
      && x.title.Some?
      && Includes(Lower(x.title.value), Lower(v.search))
      && (v.filterPriority == "All" || x.priority == v.filterPriority)
  {
    assert x in FilteredTasks(tasks, v) <==> multiset(FilteredTasks(tasks, v))[x] > 0;
    assert x in tasks <==> multiset(tasks)[x] > 0;
  }

  /** The visible list is a reordering of the filtered subsequence: same tasks, same multiplicities. */
  lemma FilteredIsPermutation(tasks: seq<Task>, v: ViewState)
    ensures multiset(FilteredTasks(tasks, v)) == multiset(Matching(tasks, v.search, v.filterPriority))
    ensures IsSubsequence(Matching(tasks, v.search, v.filterPriority), tasks)
  {
    var bySearch := Filter(tasks, t => MatchesSearch(t, v.search));
    FilterIsSubsequence(tasks, t => MatchesSearch(t, v.search));
    FilterIsSubsequence(bySearch, t => MatchesPriority(t, v.filterPriority));
    SubsequenceTransitive(Matching(tasks, v.search, v.filterPriority), bySearch, tasks);
  }

  /** An empty search with every priority keeps exactly the tasks that have a title. */
  lemma EmptySearchKeepsTitled(tasks: seq<Task>, v: ViewState, x: Task)
    requires v.search == "" && v.filterPriority == "All"
    ensures x in FilteredTasks(tasks, v) <==> x in tasks && x.title.Some?
  {
    FilteredMembership(tasks, v, x);
    if x.title.Some? {
      IncludesEmpty(Lower(x.title.value));
    }
  }

  /** The search is case-insensitive: a term and its lower-cased form select the same tasks. */
  lemma SearchIgnoresCase(tasks: seq<Task>, v: ViewState)
    ensures FilteredTasks(tasks, v.(search := Lower(v.search))) == FilteredTasks(tasks, v)
  {
    LowerIdempotent(v.search);
    assert forall t :: MatchesSearch(t, Lower(v.search)) == MatchesSearch(t, v.search);
    var p1 := (t: Task) => MatchesSearch(t, Lower(v.search));
    var p2 := (t: Task) => MatchesSearch(t, v.search);
    FilterSamePredicate(tasks, p1, p2);
  }

  lemma {:induction false} FilterSamePredicate<T(!new)>(s: seq<T>, p: T -> bool, q: T -> bool)
    requires forall x :: p(x) == q(x)
    ensures Filter(s, p) == Filter(s, q)
  {
    if |s| > 0 {
      FilterSamePredicate(s[..|s| - 1], p, q);
    }
  }

  /** The status filter has no effect on the visible list. */
  lemma StatusFilterIgnored(tasks: seq<Task>, v: ViewState, filterStatus: string)
    ensures FilteredTasks(tasks, v.(filterStatus := filterStatus)) == FilteredTasks(tasks, v)
  {
  }

  ghost predicate AllDated(tasks: seq<Task>) {
    forall i :: 0 <= i < |tasks| ==> tasks[i].dueDate.Some?
  }

  /** Every task that passes both filters, and so reaches the comparator, has a due date. */
  ghost predicate VisibleDated(tasks: seq<Task>, v: ViewState) {
    AllKeyed(Matching(tasks, v.search, v.filterPriority), DueKey)
  }

  /**
   * With every due date present, the visible list is ordered by due date:
   * non-decreasing for "asc", non-increasing for any other sort order.
   */
  lemma FilteredSortedByDueDate(tasks: seq<Task>, v: ViewState)
    requires VisibleDated(tasks, v)
    ensures var r := FilteredTasks(tasks, v);
      forall i, j :: 0 <= i < j < |r| ==>
        && r[i].dueDate.Some? && r[j].dueDate.Some?
        && if v.sortOrder == "asc" then r[i].dueDate.value <= r[j].dueDate.value
           else r[i].dueDate.value >= r[j].dueDate.value
  {
    var m := Matching(tasks, v.search, v.filterPriority);
    SortBySorted(m, DueKey, OrderOf(v.sortOrder));
    DueDatesInOrder(FilteredTasks(tasks, v), v.sortOrder);
  }

  lemma DueDatesInOrder(r: seq<Task>, sortOrder: string)
    requires SortedBy(r, DueKey, OrderOf(sortOrder))
    ensures forall i, j :: 0 <= i < j < |r| ==>
      && r[i].dueDate.Some? && r[j].dueDate.Some?
      && if sortOrder == "asc" then r[i].dueDate.value <= r[j].dueDate.value
         else r[i].dueDate.value >= r[j].dueDate.value
  {
  }

  /** A board whose every task is dated shows only dated tasks. */
  lemma MatchingDated(tasks: seq<Task>, v: ViewState)
    requires AllDated(tasks)
    ensures VisibleDated(tasks, v)
  {
    var m := Matching(tasks, v.search, v.filterPriority);
    forall i | 0 <= i < |m|
      ensures DueKey(m[i]).Some?
    {
      assert m[i] in multiset(m);
      assert m[i] in multiset(tasks);
    }
  }

  /** Toggling the sort order reverses the relative order of two visible tasks with different due dates. */
  lemma ToggleReverses(tasks: seq<Task>, v: ViewState, x: Task, y: Task)
    requires VisibleDated(tasks, v)
    requires x.dueDate.Some? && y.dueDate.Some? && x.dueDate.value < y.dueDate.value
    ensures var up := FilteredTasks(tasks, v.(sortOrder := "asc"));
      forall i, j :: (0 <= i < |up| && 0 <= j < |up| && up[i] == x && up[j] == y) ==> i < j
    ensures var down := FilteredTasks(tasks, v.(sortOrder := "desc"));
      forall i, j :: (0 <= i < |down| && 0 <= j < |down| && down[i] == y && down[j] == x) ==> i < j
  {
    var m := Matching(tasks, v.search, v.filterPriority);
    OppositeOrders(m, DueKey, x, y);
  }

  // ----- Columns -----

  /** The column statuses, left to right. */
  const ColumnStatuses: seq<Status> := [ToDo, InProgress, Done]

  /** A column shows the visible tasks whose stored status is the column's name, in visible order. */
  function Column(visible: seq<Task>, s: Status): (col: seq<Task>)
    ensures forall x :: multiset(col)[x] == if x.status == StatusName(s) then multiset(visible)[x] else 0
  {
    var name := StatusName(s);
    Filter(visible, (t: Task) => t.status == name)
  }

  /** The three columns, left to right, over the visible list. */
  function Columns(tasks: seq<Task>, v: ViewState): (cols: seq<seq<Task>>)
    ensures |cols| == 3
  {
    var visible := FilteredTasks(tasks, v);
    seq(3, i requires 0 <= i < 3 => Column(visible, ColumnStatuses[i]))
  }

  /** Each column keeps the visible tasks of its status, with their multiplicities and in the order they are shown. */
  lemma ColumnContents(tasks: seq<Task>, v: ViewState, i: int)
    requires 0 <= i < 3
    ensures var col, visible := Columns(tasks, v)[i], FilteredTasks(tasks, v);
      && (forall x: Task :: multiset(col)[x] == if x.status == StatusName(ColumnStatuses[i]) then multiset(visible)[x] else 0)
      && IsSubsequence(col, visible)
  {
    var name := StatusName(ColumnStatuses[i]);
    FilterIsSubsequence(FilteredTasks(tasks, v), (t: Task) => t.status == name);
  }

  /** The column at index `i` is the column for the i-th status over the visible list. */
  lemma ColumnAt(tasks: seq<Task>, v: ViewState, i: int)
    requires 0 <= i < 3
    ensures Columns(tasks, v)[i] == Column(FilteredTasks(tasks, v), ColumnStatuses[i])
  {
  }

  /** Over any list, the three status columns split the tasks with an enum status and drop the rest. */
  lemma ColumnCounts(visible: seq<Task>, x: Task)
    ensures multiset(Column(visible, ToDo))[x] + multiset(Column(visible, InProgress))[x]
      + multiset(Column(visible, Done))[x] ==
        if x.status in {"To Do", "In Progress", "Done"} then multiset(visible)[x] else 0
  {
    match ParseStatus(x.status)
    case None =>
    case Some(s) =>
      assert StatusName(s) == x.status;
  }

  /**
   * The columns partition the visible tasks with an enum status: every such
   * task is shown once in total, and a task with any other status is in no column.
   */
  lemma ColumnsPartition(tasks: seq<Task>, v: ViewState, x: Task)
    ensures var cols := Columns(tasks, v);
      multiset(cols[0])[x] + multiset(cols[1])[x] + multiset(cols[2])[x] ==
        if x.status in {"To Do", "In Progress", "Done"} then multiset(FilteredTasks(tasks, v))[x] else 0
  {
    ColumnAt(tasks, v, 0);
    ColumnAt(tasks, v, 1);
    ColumnAt(tasks, v, 2);
    ColumnCounts(FilteredTasks(tasks, v), x);
  }

  /** Over any list, a task is in at most one of two different status columns. */
  lemma ColumnExclusive(visible: seq<Task>, a: Status, b: Status, x: Task)
    requires a != b
    ensures !(x in Column(visible, a) && x in Column(visible, b))
  {
    assert x in Column(visible, a) <==> multiset(Column(visible, a))[x] > 0;
    assert x in Column(visible, b) <==> multiset(Column(visible, b))[x] > 0;
  }

  /** No task is in two columns. */
  lemma ColumnsDisjoint(tasks: seq<Task>, v: ViewState, i: int, j: int, x: Task)
    requires 0 <= i < 3 && 0 <= j < 3 && i != j
    ensures !(x in Columns(tasks, v)[i] && x in Columns(tasks, v)[j])
  {
    ColumnAt(tasks, v, i);
    ColumnAt(tasks, v, j);
    ColumnExclusive(FilteredTasks(tasks, v), ColumnStatuses[i], ColumnStatuses[j], x);
  }

  /** A task whose stored status is not one of the three names is in no column. */
  lemma OutsideEnumInNoColumn(tasks: seq<Task>, v: ViewState, x: Task, i: int)
    requires ParseStatus(x.status).None?
    requires 0 <= i < 3
    ensures x !in Columns(tasks, v)[i]
  {
    ColumnAt(tasks, v, i);
    var col := Column(FilteredTasks(tasks, v), ColumnStatuses[i]);
    assert x in col <==> multiset(col)[x] > 0;
  }
}

=== FILE: route_gate.dfy ===
/** The guard in front of the dashboard route. */
module RouteGate {
  import opened Wrappers
  import opened Session

  /** What the guard renders. */
  datatype Screen = LoadingPlaceholder | Redirect(path: string) | Children

  /** Wait for the first notification, then show the children to a signed-in user and redirect anyone else. */
  function Gate(s: Session): (r: Screen)
    ensures r == LoadingPlaceholder <==> s.loading
    ensures r == Redirect("/signin") <==> !s.loading && s.user.None?
    ensures r == Children <==> !s.loading && s.user.Some?
    ensures r.Redirect? ==> r.path == "/signin"
  {
    if s.loading then LoadingPlaceholder
    else if s.user.None? then Redirect("/signin")
    else Children
  }

  /**
   * From the initial state, the dashboard is rendered after a run exactly when
   * a notification has arrived and the latest identity is present.
   */
  lemma ChildrenReachable(actions: seq<Action>)
    ensures Gate(Run(Init, actions)) == Children <==> HasAuthChange(actions) && LatestUser(None, actions).Some?
  {
    RunLoading(Init, actions);
    RunUser(Init, actions);
  }

  /**
   * A successful signin alone never opens the dashboard: until a notification
   * arrives the guard keeps showing the placeholder.
   */
  lemma SigninAloneStaysLoading(actions: seq<Action>)
    requires forall i :: 0 <= i < |actions| ==> !actions[i].AuthChanged?
    ensures Gate(Run(Init, actions)) == LoadingPlaceholder
  {
    RunLoading(Init, actions);
  }

  /** Example: signing in with the provider's user, before any notification, shows the placeholder. */
  lemma SigninThenWait(u: User)
    ensures Gate(Run(Init, [SigninDone(Resolved(u))])) == LoadingPlaceholder
    ensures Gate(Run(Init, [SigninDone(Resolved(u)), AuthChanged(Some(u))])) == Children
  {
    var signedIn := Next(Init, SigninDone(Resolved(u)));
    assert signedIn == Session(Some(u), true);
    assert Run(Init, [SigninDone(Resolved(u))]) == Run(signedIn, []);
    var both := [SigninDone(Resolved(u)), AuthChanged(Some(u))];
    assert both[1..] == [AuthChanged(Some(u))];
    assert Run(Init, both) == Run(signedIn, [AuthChanged(Some(u))]);
    assert Run(signedIn, [AuthChanged(Some(u))]) == Run(Session(Some(u), false), []);
  }
}

=== FILE: seqs.dfy ===
/** `Array.prototype.filter` on immutable sequences. */
module Seqs {

  /** Keeps the elements satisfying `p`, in their original order. */
  function Filter<T(==,!new)>(s: seq<T>, p: T -> bool): (r: seq<T>)
    ensures |r| <= |s|
    ensures forall i :: 0 <= i < |r| ==> p(r[i])
    ensures forall x :: multiset(r)[x] == if p(x) then multiset(s)[x] else 0
  {
    if |s| == 0 then []
    else
      var init := Filter(s[..|s| - 1], p);
      assert s == s[..|s| - 1] + [s[|s| - 1]];
      if p(s[|s| - 1]) then init + [s[|s| - 1]] else init
  }

  /** Soundness and completeness of `Filter` as membership facts. */
  lemma FilterMembership<T(!new)>(s: seq<T>, p: T -> bool, x: T)
    ensures x in Filter(s, p) <==> x in s && p(x)
  {
    assert x in Filter(s, p) <==> multiset(Filter(s, p))[x] > 0;
    assert x in s <==> multiset(s)[x] > 0;
  }

  ghost predicate StrictlyIncreasing(idx: seq<nat>) {
    forall a, b :: 0 <= a < b < |idx| ==> idx[a] < idx[b]
  }

  /** The positions of `s` whose elements satisfy `p`, in increasing order. */
  function KeptIndices<T>(s: seq<T>, p: T -> bool): (idx: seq<nat>)
    ensures forall k :: 0 <= k < |idx| ==> idx[k] < |s|
  {
    if |s| == 0 then []
    else
      var n := |s| - 1;
      var init := KeptIndices(s[..n], p);
      if p(s[n]) then init + [n] else init
  }

  /** `Filter` keeps exactly the positions satisfying `p`, and keeps them in order. */
  lemma {:induction false} KeptIndicesSpec<T(!new)>(s: seq<T>, p: T -> bool)
    ensures |KeptIndices(s, p)| == |Filter(s, p)|
    ensures StrictlyIncreasing(KeptIndices(s, p))
    ensures forall k :: 0 <= k < |KeptIndices(s, p)| ==> s[KeptIndices(s, p)[k]] == Filter(s, p)[k]
    ensures forall i :: 0 <= i < |s| ==> (i in KeptIndices(s, p) <==> p(s[i]))
  {
    if |s| > 0 {
      var n := |s| - 1;
      KeptIndicesSpec(s[..n], p);
      FilterLast(s, p);
      KeptStep(s, p, KeptIndices(s, p), KeptIndices(s[..n], p), Filter(s, p), Filter(s[..n], p));
    }
  }

  /** One unfolding of `Filter` and `KeptIndices` at the last element. */
  lemma FilterLast<T(!new)>(s: seq<T>, p: T -> bool)
    requires |s| > 0
    ensures var n := |s| - 1;
      || (p(s[n]) && KeptIndices(s, p) == KeptIndices(s[..n], p) + [n] && Filter(s, p) == Filter(s[..n], p) + [s[n]])
      || (!p(s[n]) && KeptIndices(s, p) == KeptIndices(s[..n], p) && Filter(s, p) == Filter(s[..n], p))
  {
  }

  lemma KeptStep<T>(s: seq<T>, p: T -> bool, idx: seq<nat>, init: seq<nat>, f: seq<T>, finit: seq<T>)
    requires |s| > 0
    requires |init| == |finit|
    requires StrictlyIncreasing(init)
    requires forall k :: 0 <= k < |init| ==> init[k] < |s| - 1 && s[..|s| - 1][init[k]] == finit[k]
    requires forall i :: 0 <= i < |s| - 1 ==> (i in init <==> p(s[..|s| - 1][i]))
    requires (p(s[|s| - 1]) && idx == init + [|s| - 1] && f == finit + [s[|s| - 1]])
          || (!p(s[|s| - 1]) && idx == init && f == finit)
    ensures |idx| == |f|
    ensures StrictlyIncreasing(idx)
    ensures forall k :: 0 <= k < |idx| ==> s[idx[k]] == f[k]
    ensures forall i :: 0 <= i < |s| ==> (i in idx <==> p(s[i]))
  {
    var n := |s| - 1;
    forall k | 0 <= k < |idx|
      ensures s[idx[k]] == f[k]
    {
      if k < |init| {
        assert s[init[k]] == s[..n][init[k]];
      }
    }
    forall i | 0 <= i < |s|
      ensures i in idx <==> p(s[i])
    {
      if i < n {
        assert s[i] == s[..n][i];
      }
    }
  }

  /** `idx` lists, in increasing order, positions of `s` that spell out `r`. */
  ghost predicate Embeds<T>(idx: seq<nat>, r: seq<T>, s: seq<T>) {
    && |idx| == |r|
    && StrictlyIncreasing(idx)
    && forall k :: 0 <= k < |idx| ==> idx[k] < |s| && s[idx[k]] == r[k]
  }

  /** `r` is obtained from `s` by deleting elements, without reordering. */
  ghost predicate IsSubsequence<T>(r: seq<T>, s: seq<T>) {
    exists idx: seq<nat> :: Embeds(idx, r, s)
  }

  lemma FilterIsSubsequence<T(!new)>(s: seq<T>, p: T -> bool)
    ensures IsSubsequence(Filter(s, p), s)
  {
    KeptIndicesSpec(s, p);
    assert Embeds(KeptIndices(s, p), Filter(s, p), s);
  }

  /** Filtering twice is filtering once by the conjunction. */
  lemma {:induction false} FilterFilter<T(!new)>(s: seq<T>, p: T -> bool, q: T -> bool, pq: T -> bool)
    requires forall x :: pq(x) == (p(x) && q(x))
    ensures Filter(Filter(s, p), q) == Filter(s, pq)
  {
    if |s| > 0 {
      var init := s[..|s| - 1];
      FilterFilter(init, p, q, pq);
      if p(s[|s| - 1]) {
        assert Filter(s, p)[..|Filter(s, p)| - 1] == Filter(init, p);
      } else {
        assert Filter(s, p) == Filter(init, p);
      }
    }
  }

  lemma SubsequenceTransitive<T>(a: seq<T>, b: seq<T>, c: seq<T>)
    requires IsSubsequence(a, b) && IsSubsequence(b, c)
    ensures IsSubsequence(a, c)
  {
    var ab: seq<nat> :| Embeds(ab, a, b);
    var bc: seq<nat> :| Embeds(bc, b, c);
    var ac: seq<nat> := seq(|ab|, k requires 0 <= k < |ab| => bc[ab[k]]);
    forall k | 0 <= k < |ac|
      ensures ac[k] < |c| && c[ac[k]] == a[k]
    {
      assert ac[k] == bc[ab[k]];
    }
    forall x, y | 0 <= x < y < |ac|
      ensures ac[x] < ac[y]
    {
      assert ab[x] < ab[y];
    }
    assert Embeds(ac, a, c);
  }
}

=== FILE: session.dfy ===
/**
 * The authentication store: who is signed in and whether the first
 * identity-change notification has arrived yet. Calls to the identity
 * provider are not modelled; only their outcomes drive the state.
 */
module Session {
  import opened Wrappers

  /** The provider's identity object: `uid`, `email`, `displayName`. */
  datatype User = User(uid: string, email: Option<string>, displayName: Option<string>)

  datatype Session = Session(user: Option<User>, loading: bool)

  /** No one is signed in and the first notification is awaited. */
  const Init := Session(None, true)

  /** What a provider call resolved to: a value, or the error it rejected with. */
  datatype Outcome<+T> = Resolved(value: T) | Rejected(error: string)

  /** A store action together with the outcome of the provider call it made. */
  datatype Action =
    | SignupDone(signup: Outcome<User>)
    | SigninDone(signin: Outcome<User>)
    | LogoutDone(logout: Outcome<()>)
    | AuthChanged(changed: Option<User>)

  /**
   * One store action. A rejected provider call is rethrown unchanged and
   * performs no state update; a resolved call merges only `user` into the
   * state; an identity-change notification sets `user` and clears `loading`.
   */
  function Step(s: Session, a: Action): (r: Result<Session, string>)
    ensures a.AuthChanged? ==> r == Success(Session(a.changed, false))
    ensures !a.AuthChanged? && r.Success? ==> r.value.loading == s.loading
    ensures a.SignupDone? && a.signup.Resolved? ==> r.Success? && r.value.user == Some(a.signup.value)
    ensures a.SigninDone? && a.signin.Resolved? ==> r.Success? && r.value.user == Some(a.signin.value)
    ensures a.LogoutDone? && a.logout.Resolved? ==> r.Success? && r.value.user.None?
    ensures a.SignupDone? && a.signup.Rejected? ==> r == Failure(a.signup.error)
    ensures a.SigninDone? && a.signin.Rejected? ==> r == Failure(a.signin.error)
    ensures a.LogoutDone? && a.logout.Rejected? ==> r == Failure(a.logout.error)
  {
    match a
    case SignupDone(Resolved(u)) => Success(s.(user := Some(u)))
    case SignupDone(Rejected(e)) => Failure(e)
    case SigninDone(Resolved(u)) => Success(s.(user := Some(u)))
    case SigninDone(Rejected(e)) => Failure(e)
    case LogoutDone(Resolved(_)) => Success(s.(user := None))
    case LogoutDone(Rejected(e)) => Failure(e)
    case AuthChanged(u) => Success(Session(u, false))
  }

  /**
   * The state after an action, whether or not it threw: a rejected call leaves
   * the store untouched, only a notification clears `loading`.
   */
  function Next(s: Session, a: Action): (r: Session)
    ensures r.loading <==> s.loading && !a.AuthChanged?
    ensures a.AuthChanged? ==> r.user == a.changed
    ensures a.SignupDone? ==> r.user == if a.signup.Resolved? then Some(a.signup.value) else s.user
    ensures a.SigninDone? ==> r.user == if a.signin.Resolved? then Some(a.signin.value) else s.user
    ensures a.LogoutDone? ==> r.user == if a.logout.Resolved? then None else s.user
  {
    match Step(s, a)
    case Success(t) => t
    case Failure(_) => s
  }

  /** The state after a sequence of actions, in order. */
  function Run(s: Session, actions: seq<Action>): Session
    decreases |actions|
  {
    if |actions| == 0 then s else Run(Next(s, actions[0]), actions[1..])
  }

  /** A failed action leaves the state exactly as it was. */
  lemma FailureKeepsState(s: Session, a: Action)
    requires Step(s, a).Failure?
    ensures Next(s, a) == s
    ensures !a.AuthChanged?
  {
  }

  /** No action sets `loading` back to true. */
  lemma LoadingNeverReturns(s: Session, a: Action)
    requires !s.loading
    ensures !Next(s, a).loading
  {
  }

  lemma {:induction false} RunAppend(s: Session, actions: seq<Action>, a: Action)
    ensures Run(s, actions + [a]) == Next(Run(s, actions), a)
    decreases |actions|
  {
    if |actions| > 0 {
      assert (actions + [a])[1..] == actions[1..] + [a];
      RunAppend(Next(s, actions[0]), actions[1..], a);
    }
  }

  ghost predicate HasAuthChange(actions: seq<Action>) {
    exists i :: 0 <= i < |actions| && actions[i].AuthChanged?
  }

  /** `loading` is false after a run exactly when it started false or some notification arrived. */
  lemma {:induction false} RunLoading(s: Session, actions: seq<Action>)
    ensures !Run(s, actions).loading <==> !s.loading || HasAuthChange(actions)
    decreases |actions|
  {
    if |actions| > 0 {
      RunLoading(Next(s, actions[0]), actions[1..]);
      assert HasAuthChange(actions) <==> actions[0].AuthChanged? || HasAuthChange(actions[1..]) by {
        if HasAuthChange(actions[1..]) {
          var i :| 0 <= i < |actions[1..]| && actions[1..][i].AuthChanged?;
          assert actions[i + 1].AuthChanged?;
        }
        if HasAuthChange(actions) && !actions[0].AuthChanged? {
          var i :| 0 <= i < |actions| && actions[i].AuthChanged?;
          assert actions[1..][i - 1].AuthChanged?;
        }
      }
    } else {
      assert !HasAuthChange(actions);
    }
  }

  /**
   * The identity after a run, read independently from the last action that
   * set one: a resolved signup or signin, a resolved logout, or a notification.
   * Rejected actions are skipped.
   */
  ghost function LatestUser(initial: Option<User>, actions: seq<Action>): Option<User>
    decreases |actions|
  {
    if |actions| == 0 then initial
    else
      var last := actions[|actions| - 1];
      var earlier := actions[..|actions| - 1];
      match last
      case SignupDone(Resolved(u)) => Some(u)
      case SigninDone(Resolved(u)) => Some(u)
      case LogoutDone(Resolved(_)) => None
      case AuthChanged(u) => u
      case _ => LatestUser(initial, earlier)
  }

  lemma {:induction false} RunUser(s: Session, actions: seq<Action>)
    ensures Run(s, actions).user == LatestUser(s.user, actions)
    decreases |actions|
  {
    if |actions| > 0 {
      var earlier := actions[..|actions| - 1];
      assert actions == earlier + [actions[|actions| - 1]];
      RunAppend(s, earlier, actions[|actions| - 1]);
      RunUser(s, earlier);
    }
  }
}

=== FILE: sorting.dfy ===
/** A stable sort by an optional integer key, driven by the comparator the board uses for dates. */
module Sorting {
  import opened Wrappers

  datatype Order = Ascending | Descending

  /**
   * The comparator `a - b` (ascending) or `b - a` (descending) on two dates.
   * A missing or unparsable date makes the difference NaN, which a JavaScript
   * sort reads as "equal", so the comparator then answers 0.
   */
  function Compare(order: Order, a: Option<int>, b: Option<int>): (r: int)
    ensures a.None? || b.None? ==> r == 0
    ensures a.Some? && b.Some? && order == Ascending ==> (r < 0 <==> a.value < b.value) && (r > 0 <==> a.value > b.value)
    ensures a.Some? && b.Some? && order == Descending ==> (r < 0 <==> a.value > b.value) && (r > 0 <==> a.value < b.value)
  {
    if a.None? || b.None? then 0
    else if order == Ascending then a.value - b.value
    else b.value - a.value
  }

  /** The comparator is antisymmetric, and the descending one is the ascending one with its arguments swapped. */
  lemma CompareAntisymmetric(order: Order, a: Option<int>, b: Option<int>)
    ensures Compare(order, a, b) == -Compare(order, b, a)
    ensures Compare(Descending, a, b) == Compare(Ascending, b, a)
  {
  }

  /** `a` may stay before `b` in a list sorted by `order`. */
  predicate InOrder(order: Order, a: int, b: int) {
    if order == Ascending then a <= b else a >= b
  }

  ghost predicate AllKeyed<T>(s: seq<T>, key: T -> Option<int>) {
    forall i :: 0 <= i < |s| ==> key(s[i]).Some?
  }

  /** Every pair of elements is ordered by key: non-decreasing or non-increasing. */
  ghost predicate SortedBy<T>(s: seq<T>, key: T -> Option<int>, order: Order) {
    && AllKeyed(s, key)
    && forall i, j :: 0 <= i < j < |s| ==> InOrder(order, key(s[i]).value, key(s[j]).value)
  }

  /** Places `x` before the first element it does not compare after; ties keep `x` first. */
  function Insert<T(==,!new)>(x: T, s: seq<T>, key: T -> Option<int>, order: Order): (r: seq<T>)
    ensures multiset(r) == multiset(s) + multiset{x}
  {
    if |s| == 0 then [x]
    else if Compare(order, key(x), key(s[0])) <= 0 then [x] + s
    else
      assert s == [s[0]] + s[1..];
      [s[0]] + Insert(x, s[1..], key, order)
  }

  /** Stable insertion sort: the order `Array.prototype.sort` must produce for a consistent comparator. */
  function SortBy<T(==,!new)>(s: seq<T>, key: T -> Option<int>, order: Order): (r: seq<T>)
    ensures multiset(r) == multiset(s)
  {
    if |s| == 0 then []
    else
      assert s == [s[0]] + s[1..];
      Insert(s[0], SortBy(s[1..], key, order), key, order)
  }

  /** Every element of `Insert(x, s)` is `x` or an element of `s`. */
  lemma InsertMember<T(!new)>(x: T, s: seq<T>, key: T -> Option<int>, order: Order, y: T)
    requires y in Insert(x, s, key, order)
    ensures y == x || y in s
  {
    assert y in multiset(Insert(x, s, key, order));
  }

  lemma {:induction false} InsertSorted<T(!new)>(x: T, s: seq<T>, key: T -> Option<int>, order: Order)
    requires SortedBy(s, key, order)
    requires key(x).Some?
    ensures SortedBy(Insert(x, s, key, order), key, order)
  {
    if |s| > 0 && Compare(order, key(x), key(s[0])) > 0 {
      var tail := s[1..];
      assert SortedBy(tail, key, order) by {
        forall i, j | 0 <= i < j < |tail|
          ensures InOrder(order, key(tail[i]).value, key(tail[j]).value)
        {
          assert tail[i] == s[i + 1] && tail[j] == s[j + 1];
        }
      }
      InsertSorted(x, tail, key, order);
      var ins := Insert(x, tail, key, order);
      forall j | 0 <= j < |ins|
        ensures InOrder(order, key(s[0]).value, key(ins[j]).value)
      {
        InsertMember(x, tail, key, order, ins[j]);
        if ins[j] != x {
          var m :| 0 <= m < |tail| && tail[m] == ins[j];
          assert s[m + 1] == ins[j];
        }
      }
      HeadThenSorted(s[0], ins, key, order);
    }
  }

  /** A keyed head in order with every element of a sorted list keeps it sorted. */
  lemma HeadThenSorted<T>(h: T, s: seq<T>, key: T -> Option<int>, order: Order)
    requires SortedBy(s, key, order) && key(h).Some?
    requires forall j :: 0 <= j < |s| ==> InOrder(order, key(h).value, key(s[j]).value)
    ensures SortedBy([h] + s, key, order)
  {
    var r := [h] + s;
    forall i, j | 0 <= i < j < |r|
      ensures InOrder(order, key(r[i]).value, key(r[j]).value)
    {
      assert r[j] == s[j - 1];
      if i > 0 {
        assert r[i] == s[i - 1];
      }
    }
  }

  /** When every element has a key the sort orders the whole list by it. */
  lemma {:induction false} SortBySorted<T(!new)>(s: seq<T>, key: T -> Option<int>, order: Order)
    requires AllKeyed(s, key)
    ensures SortedBy(SortBy(s, key, order), key, order)
  {
    if |s| > 0 {
      SortBySorted(s[1..], key, order);
      InsertSorted(s[0], SortBy(s[1..], key, order), key, order);
    }
  }

  /**
   * Two elements with different keys appear in opposite relative orders under
   * the ascending and the descending sort.
   */
  lemma OppositeOrders<T(!new)>(s: seq<T>, key: T -> Option<int>, x: T, y: T)
    requires AllKeyed(s, key)
    requires key(x).Some? && key(y).Some? && key(x).value < key(y).value
    ensures forall i, j :: (0 <= i < |SortBy(s, key, Ascending)| && 0 <= j < |SortBy(s, key, Ascending)|
      && SortBy(s, key, Ascending)[i] == x && SortBy(s, key, Ascending)[j] == y) ==> i < j
    ensures forall i, j :: (0 <= i < |SortBy(s, key, Descending)| && 0 <= j < |SortBy(s, key, Descending)|
      && SortBy(s, key, Descending)[i] == y && SortBy(s, key, Descending)[j] == x) ==> i < j
  {
    SortBySorted(s, key, Ascending);
    SortBySorted(s, key, Descending);
    SortedPositions(SortBy(s, key, Ascending), key, Ascending);
    SortedPositions(SortBy(s, key, Descending), key, Descending);
  }

  /** In a sorted list, an element with a strictly earlier key sits at a strictly earlier position. */
  lemma SortedPositions<T>(s: seq<T>, key: T -> Option<int>, order: Order)
    requires SortedBy(s, key, order)
    ensures forall a, b :: (0 <= a < |s| && 0 <= b < |s| && key(s[a]).value != key(s[b]).value
      && InOrder(order, key(s[a]).value, key(s[b]).value)) ==> a < b
  {
  }

  /** An element whose key is strictly greater than every other key comes first in a descending sort. */
  lemma NewestFirst<T(!new)>(s: seq<T>, key: T -> Option<int>, x: T)
    requires AllKeyed(s, key)
    requires x in s
    requires forall y :: y in s && y != x ==> key(y).value < key(x).value
    ensures |SortBy(s, key, Descending)| > 0 && SortBy(s, key, Descending)[0] == x
  {
    var r := SortBy(s, key, Descending);
    SortBySorted(s, key, Descending);
    assert x in multiset(r);
    var i :| 0 <= i < |r| && r[i] == x;
    assert r[0] in multiset(s);
    if i > 0 {
      assert InOrder(Descending, key(r[0]).value, key(r[i]).value);
    }
  }
}

=== FILE: task_actions.dfy ===
/**
 * The dashboard's task handlers: create, edit, delete and drag-and-drop move.
 * Each handler is a single step from the local task list to the list it
 * leaves, the store write it issues and the log message it appends. Whether a
 * store write succeeds is an input (`writeOk`); a failed write is thrown and
 * skips the log.
 */
module TaskActions {
  import opened Wrappers
  import opened Seqs
  import opened Tasks
  import opened Session
  import opened TaskStore
  import opened ActivityLog

  datatype Effects = Effects(tasks: seq<Task>, write: Option<Command>, logMessage: Option<string>)

  /** Leaves the list alone, writes nothing and logs nothing. */
  function NoOp(tasks: seq<Task>): Effects {
    Effects(tasks, None, None)
  }

  /** `tasks.find(t => t.id === id)`, as a position: the first task with that id. */
  function FindIndex(tasks: seq<Task>, id: string): (r: Option<nat>)
    ensures r.None? <==> forall i :: 0 <= i < |tasks| ==> tasks[i].id != id
    ensures r.Some? ==> r.value < |tasks| && tasks[r.value].id == id
    ensures r.Some? ==> forall k :: 0 <= k < r.value ==> tasks[k].id != id
  {
    if |tasks| == 0 then None
    else if tasks[0].id == id then Some(0)
    else
      match FindIndex(tasks[1..], id)
      case None => None
      case Some(j) => Some(j + 1)
  }

  /** `tasks.find(t => t.id === id)`: the first task with that id, if any. */
  function Find(tasks: seq<Task>, id: string): (r: Option<Task>)
    ensures r.None? <==> forall i :: 0 <= i < |tasks| ==> tasks[i].id != id
    ensures r.Some? ==> r.value in tasks && r.value.id == id
    ensures r.Some? ==> FindIndex(tasks, id).Some? && r.value == tasks[FindIndex(tasks, id).value]
  {
    match FindIndex(tasks, id)
    case None => None
    case Some(i) => Some(tasks[i])
  }

  /** How a template literal shows an absent title. */
  function TitleText(title: Option<string>): string {
    match title
    case Some(s) => s
    case None => "undefined"
  }

  /**
   * The move message: the quoted title, then the target column's name, then the
   * actor's label (display name, else e-mail).
   */
  function MoveMessage(title: Option<string>, s: Status, u: User): (m: string)
    ensures var head, name, tail := "Moved \"" + TitleText(title) + "\" to ", StatusName(s), " by " + Render(ActorLabel(u));
      && |m| == |head| + |name| + |tail|
      && m[..|head|] == head
      && m[|head|..|head| + |name|] == name
      && m[|head| + |name|..] == tail
  {
    var head := "Moved \"" + TitleText(title) + "\" to ";
    var tail := " by " + Render(ActorLabel(u));
    var m := head + StatusName(s) + tail;
    assert m[|head|..|head| + |StatusName(s)|] == StatusName(s);
    assert m[|head| + |StatusName(s)|..] == tail;
    m
  }

  /** The log tells the columns apart: moves of one card by one user to different columns log different messages. */
  lemma MoveMessageNamesStatus(title: Option<string>, s1: Status, s2: Status, u: User)
    requires s1 != s2
    ensures MoveMessage(title, s1, u) != MoveMessage(title, s2, u)
  {
    var head := "Moved \"" + TitleText(title) + "\" to ";
    var m1, m2 := MoveMessage(title, s1, u), MoveMessage(title, s2, u);
    assert m1[|head|] == StatusName(s1)[0] by {
      assert m1[|head|..|head| + |StatusName(s1)|][0] == StatusName(s1)[0];
    }
    assert m2[|head|] == StatusName(s2)[0] by {
      assert m2[|head|..|head| + |StatusName(s2)|][0] == StatusName(s2)[0];
    }
    assert StatusName(s1)[0] != StatusName(s2)[0];
  }

  /** The optimistic update: every task with the id takes the new status text. */
  function Relabel(tasks: seq<Task>, id: string, status: string): (r: seq<Task>)
    ensures |r| == |tasks|
    ensures forall i :: 0 <= i < |tasks| ==> r[i].id == tasks[i].id
    ensures forall i :: 0 <= i < |tasks| ==> r[i].(status := tasks[i].status) == tasks[i]
    ensures forall i :: 0 <= i < |tasks| && tasks[i].id == id ==> r[i].status == status
    ensures forall i :: 0 <= i < |tasks| && tasks[i].id != id ==> r[i] == tasks[i]
  {
    seq(|tasks|, i requires 0 <= i < |tasks| => if tasks[i].id == id then tasks[i].(status := status) else tasks[i])
  }

  /**
   * Drop of card `id` on the column for `newStatus`. Skipped while tasks are
   * loading or when no task has the id; otherwise every task with the id takes
   * the new status at once, the status write is issued, and once it succeeds
   * the move is logged under the signed-in user's name (with no user the name
   * lookup throws and nothing is logged).
   */
  function MoveTask(tasks: seq<Task>, loading: bool, user: Option<User>, id: string, newStatus: Status, writeOk: bool): (e: Effects)
    ensures loading ==> e == NoOp(tasks)
    ensures (forall i :: 0 <= i < |tasks| ==> tasks[i].id != id) ==> e == NoOp(tasks)
    ensures !loading && Find(tasks, id).Some? ==>
      && |e.tasks| == |tasks|
      && (forall i :: 0 <= i < |tasks| ==> e.tasks[i].(status := tasks[i].status) == tasks[i])
      && (forall i :: 0 <= i < |tasks| && tasks[i].id == id ==> e.tasks[i].status == StatusName(newStatus))
      && (forall i :: 0 <= i < |tasks| && tasks[i].id != id ==> e.tasks[i] == tasks[i])
      && e.write == Some(UpdateStatus(id, StatusName(newStatus)))
      && (e.logMessage.Some? <==> writeOk && user.Some?)
      && (e.logMessage.Some? ==> e.logMessage.value == MoveMessage(Find(tasks, id).value.title, newStatus, user.value))
  {
    if loading then NoOp(tasks)
    else
      match Find(tasks, id)
      case None => NoOp(tasks)
      case Some(task) =>
        var name := StatusName(newStatus);
        var moved := Relabel(tasks, id, name);
        var message := if writeOk && user.Some? then Some(MoveMessage(task.title, newStatus, user.value)) else None;
        Effects(moved, Some(UpdateStatus(id, name)), message)
  }

  /** Delete button: only a task present in the list is deleted and logged. */
  function DeleteTask(tasks: seq<Task>, id: string, writeOk: bool): (e: Effects)
    ensures e.tasks == tasks
    ensures (forall i :: 0 <= i < |tasks| ==> tasks[i].id != id) ==> e == NoOp(tasks)
    ensures Find(tasks, id).Some? ==>
      && e.write == Some(DeleteDoc(id))
      && (e.logMessage.Some? <==> writeOk)
      && (writeOk ==> e.logMessage.value == "Task \"" + TitleText(Find(tasks, id).value.title) + "\" deleted.")
  {
    match Find(tasks, id)
    case None => NoOp(tasks)
    case Some(task) =>
      Effects(tasks, Some(DeleteDoc(id)), if writeOk then Some("Task \"" + TitleText(task.title) + "\" deleted.") else None)
  }

  /** The editor a card opens with: the task's own title, description, due date and priority. */
  function EditorOf(t: Task): EditPayload {
    EditPayload(t.title, t.description, t.dueDate, t.priority)
  }

  /** Saving an editor nobody changed writes back exactly the stored task. */
  lemma UnchangedEditIsIdentity(t: Task)
    ensures Merge(t, EditorOf(t)) == t
  {
  }

  /** The editor is not checked against the task schema: saving an empty title stores a task the form would refuse. */
  lemma EditSkipsSchema(t: Task)
    requires ParsePriority(t.priority).Some? && ParseStatus(t.status).Some?
    ensures var edited := Merge(t, EditorOf(t).(title := Some("")));
      var r := Validate(TaskForm(edited.title, edited.description, edited.dueDate, edited.priority, edited.status));
      r.Failure? && TitleEmpty in r.error && PriorityInvalid !in r.error && StatusInvalid !in r.error
  {
  }

  /** Save in the card editor: writes the four edited fields of `id` and logs the new title. */
  function UpdateTask(tasks: seq<Task>, id: string, edit: EditPayload, writeOk: bool): (e: Effects)
    ensures e.tasks == tasks
    ensures e.write == Some(UpdateFields(id, edit))
    ensures e.logMessage.Some? <==> writeOk
    ensures writeOk ==> e.logMessage.value == "Task updated: " + TitleText(edit.title)
  {
    Effects(tasks, Some(UpdateFields(id, edit)), if writeOk then Some("Task updated: " + TitleText(edit.title)) else None)
  }

  /**
   * Add Task: a form that fails the schema never reaches the handler; with no
   * signed-in user the creator lookup throws first. Otherwise the validated
   * fields plus the creator's uid are written under the id the store assigns.
   */
  function SubmitTask(tasks: seq<Task>, form: TaskForm, user: Option<User>, newId: string, writeOk: bool): (e: Effects)
    ensures e.tasks == tasks
    ensures (Validate(form).Failure? || user.None?) ==> e == NoOp(tasks)
    ensures Validate(form).Success? && user.Some? ==>
      && e.write.Some? && e.write.value.AddTask?
      && var t := e.write.value.task;
      && t.id == newId && t.createdBy == user.value.uid
      && t.title == form.title && t.description == form.description && t.dueDate == form.dueDate
      && t.priority == form.priority && t.status == form.status
      && (e.logMessage.Some? <==> writeOk)
      && (writeOk ==> e.logMessage.value == "Task \"" + form.title.value + "\" created.")
  {
    match Validate(form)
    case Failure(_) => NoOp(tasks)
    case Success(d) =>
      if user.None? then NoOp(tasks)
      else
        var t := Task(newId, Some(d.title), d.description, d.dueDate, PriorityName(d.priority), StatusName(d.status), user.value.uid);
        Effects(tasks, Some(AddTask(t)), if writeOk then Some("Task \"" + d.title + "\" created.") else None)
  }

  /** Every task the board creates passes the schema again when read back as a form. */
  lemma CreatedTaskSatisfiesSchema(tasks: seq<Task>, form: TaskForm, user: Option<User>, newId: string, writeOk: bool)
    requires Validate(form).Success? && user.Some?
    ensures var t := SubmitTask(tasks, form, user, newId, writeOk).write.value.task;
      Validate(TaskForm(t.title, t.description, t.dueDate, t.priority, t.status)).Success?
  {
  }

  /** A subsequence of a list with distinct ids has distinct ids. */
  lemma SubsequenceDistinctIds(r: seq<Task>, s: seq<Task>)
    requires IsSubsequence(r, s) && DistinctIds(s)
    ensures DistinctIds(r)
  {
    var idx :| Embeds(idx, r, s);
    forall i, j | 0 <= i < j < |r|
      ensures r[i].id != r[j].id
    {
      assert idx[i] < idx[j];
      assert r[i] == s[idx[i]] && r[j] == s[idx[j]];
    }
  }

  /** Adding a document under a fresh id to a listed store is listed by appending it. */
  lemma AddMirrors(tasks: seq<Task>, store: Store, t: Task)
    requires Mirrors(tasks, store) && t.id !in store
    ensures Mirrors(tasks + [t], store[t.id := t])
  {
    var listed, after := tasks + [t], store[t.id := t];
    forall i, j | 0 <= i < j < |listed|
      ensures listed[i].id != listed[j].id
    {
      assert listed[i] == tasks[i] && tasks[i].id in store;
      if j < |tasks| {
        assert listed[j] == tasks[j];
      }
    }
    forall i | 0 <= i < |listed|
      ensures listed[i].id in after && after[listed[i].id] == listed[i]
    {
      if i < |tasks| {
        assert listed[i] == tasks[i] && tasks[i].id in store;
      }
    }
    forall k | k in after
      ensures exists i :: 0 <= i < |listed| && listed[i].id == k
    {
      if k == t.id {
        assert listed[|tasks|].id == k;
      } else {
        var i :| 0 <= i < |tasks| && tasks[i].id == k;
        assert listed[i].id == k;
      }
    }
  }

  /**
   * After a create is applied, a refetch lists the new task, under the id the
   * store assigned, after everything listed before. `addDoc` always assigns an
   * id no document has, which `newId !in store` records.
   */
  lemma CreateConverges(tasks: seq<Task>, store: Store, form: TaskForm, user: Option<User>, newId: string, writeOk: bool)
    requires Mirrors(tasks, store) && newId !in store
    requires Validate(form).Success? && user.Some?
    requires writeOk
    ensures var e := SubmitTask(tasks, form, user, newId, writeOk);
      && e.write.Some? && e.write.value.AddTask?
      && var after := Apply(store, e.write.value);
      && newId in after && after[newId] == e.write.value.task
      && Mirrors(tasks + [e.write.value.task], after)
  {
    var t := SubmitTask(tasks, form, user, newId, writeOk).write.value.task;
    AddMirrors(tasks, store, t);
  }

  /** Relabelling a listing relabels the listed store. */
  lemma RelabelMirrors(tasks: seq<Task>, store: Store, id: string, status: string)
    requires Mirrors(tasks, store) && id in store
    ensures Mirrors(Relabel(tasks, id, status), store[id := store[id].(status := status)])
  {
    var moved, after := Relabel(tasks, id, status), store[id := store[id].(status := status)];
    forall i | 0 <= i < |moved|
      ensures moved[i].id in after && after[moved[i].id] == moved[i]
    {
      assert tasks[i].id in store;
    }
    forall k | k in after
      ensures exists i :: 0 <= i < |moved| && moved[i].id == k
    {
      var i :| 0 <= i < |tasks| && tasks[i].id == k;
      assert moved[i].id == k;
    }
  }

  /**
   * The optimistic list agrees with the store after the write: if the list was
   * a listing of the store before the move, it is a listing of the store once
   * the status write has been applied.
   */
  lemma MoveConverges(tasks: seq<Task>, store: Store, user: Option<User>, id: string, newStatus: Status, writeOk: bool)
    requires Mirrors(tasks, store)
    requires Find(tasks, id).Some?
    requires writeOk
    ensures var e := MoveTask(tasks, false, user, id, newStatus, writeOk);
      e.write.Some? && Mirrors(e.tasks, Apply(store, e.write.value))
  {
    var e := MoveTask(tasks, false, user, id, newStatus, writeOk);
    var name := StatusName(newStatus);
    var i := FindIndex(tasks, id).value;
    assert tasks[i].id in store;
    assert e.tasks == Relabel(tasks, id, name);
    assert Apply(store, e.write.value) == store[id := store[id].(status := name)];
    RelabelMirrors(tasks, store, id, name);
  }

  /**
   * A rejected status write is not rolled back: the store keeps the old
   * status while the optimistic list shows the new one, so the list no longer
   * mirrors the store (and the throw skips the refetch that would resync it).
   */
  lemma RejectedMoveDiverges(tasks: seq<Task>, store: Store, user: Option<User>, id: string, newStatus: Status)
    requires Mirrors(tasks, store)
    requires Find(tasks, id).Some?
    requires Find(tasks, id).value.status != StatusName(newStatus)
    ensures !Mirrors(MoveTask(tasks, false, user, id, newStatus, false).tasks, store)
  {
    var moved := MoveTask(tasks, false, user, id, newStatus, false).tasks;
    var i := FindIndex(tasks, id).value;
    assert store[id] == tasks[i];
    assert moved[i].id == id && moved[i].status == StatusName(newStatus);
    assert store[moved[i].id] != moved[i];
  }

  /** The list a refetch shows once `id` is gone. */
  function Without(tasks: seq<Task>, id: string): (r: seq<Task>)
    ensures forall x :: x in r <==> x in tasks && x.id != id
    ensures IsSubsequence(r, tasks)
  {
    var keep := (t: Task) => t.id != id;
    var r := Filter(tasks, keep);
    FilterIsSubsequence(tasks, keep);
    assert forall x :: x in r <==> x in tasks && keep(x) by {
      forall x ensures x in r <==> x in tasks && keep(x) {
        FilterMembership(tasks, keep, x);
      }
    }
    r
  }

  /** Dropping an id from a listing lists the store without that document. */
  lemma WithoutMirrors(tasks: seq<Task>, store: Store, id: string)
    requires Mirrors(tasks, store)
    ensures Mirrors(Without(tasks, id), store - {id})
  {
    var kept, after := Without(tasks, id), store - {id};
    forall i | 0 <= i < |kept|
      ensures kept[i].id in after && after[kept[i].id] == kept[i]
    {
      assert kept[i] in kept;
      var j :| 0 <= j < |tasks| && tasks[j] == kept[i];
    }
    forall k | k in after
      ensures exists i :: 0 <= i < |kept| && kept[i].id == k
    {
      var j :| 0 <= j < |tasks| && tasks[j].id == k;
      assert tasks[j] in kept;
      var i :| 0 <= i < |kept| && kept[i] == tasks[j];
    }
    SubsequenceDistinctIds(kept, tasks);
  }

  /** After a delete is applied, a refetch no longer lists the task and lists every other one. */
  lemma DeleteConverges(tasks: seq<Task>, store: Store, id: string, writeOk: bool)
    requires Mirrors(tasks, store)
    requires Find(tasks, id).Some?
    requires writeOk
    ensures var e := DeleteTask(tasks, id, writeOk);
      && e.write.Some?
      && id !in Apply(store, e.write.value)
      && Mirrors(Without(tasks, id), Apply(store, e.write.value))
  {
    assert DeleteTask(tasks, id, writeOk).write == Some(DeleteDoc(id));
    assert Apply(store, DeleteDoc(id)) == store - {id};
    WithoutMirrors(tasks, store, id);
  }

  /** The intended entry logged for a move names the same actor as the move message. */
  lemma MoveEntryNamesActor(tasks: seq<Task>, u: User, id: string, newStatus: Status, now: int)
    requires Find(tasks, id).Some?
    ensures var e := MoveTask(tasks, false, Some(u), id, newStatus, true);
      && e.logMessage.Some?
      && var entry := NewEntryIntended(e.logMessage.value, now, Some(u));
      && var suffix := " by " + Render(entry.updatedBy);
      && |suffix| <= |entry.message|
      && entry.message[|entry.message| - |suffix|..] == suffix
  {
  }
}

=== FILE: task_store.dfy ===
/**
 * The remote task collection, abstracted to a map from document id to task,
 * and the writes the dashboard sends to it. Listing the collection yields the
 * documents in an unspecified order, so a local list is related to the store
 * only by `Mirrors`.
 */
module TaskStore {
  import opened Wrappers
  import opened Tasks

  type Store = map<string, Task>

  /** The four fields the card editor sends; status, id and creator are not among them. */
  datatype EditPayload = EditPayload(
    title: Option<string>,
    description: Option<string>,
    dueDate: Option<int>,
    priority: string)

  /** The writes the dashboard issues. */
  datatype Command =
    | AddTask(task: Task)
    | UpdateStatus(id: string, status: string)
    | UpdateFields(id: string, edit: EditPayload)
    | DeleteDoc(id: string)

  /** `updateDoc` merges the payload into the stored document; every other field is kept. */
  function Merge(t: Task, p: EditPayload): (r: Task)
    ensures r.id == t.id && r.status == t.status && r.createdBy == t.createdBy
    ensures r.title == p.title && r.description == p.description
    ensures r.dueDate == p.dueDate && r.priority == p.priority
  {
    t.(title := p.title, description := p.description, dueDate := p.dueDate, priority := p.priority)
  }

  /**
   * A write applied to the collection. An add stores the document under its
   * id, an update rewrites only the addressed document (and fails, changing
   * nothing, when it is missing), a delete removes only the addressed one.
   */
  function Apply(store: Store, c: Command): (r: Store)
    ensures c.AddTask? ==> r.Keys == store.Keys + {c.task.id} && r[c.task.id] == c.task
    ensures c.UpdateStatus? ==> r.Keys == store.Keys && (c.id in store ==> r[c.id] == store[c.id].(status := c.status))
    ensures c.UpdateFields? ==> r.Keys == store.Keys && (c.id in store ==> r[c.id] == Merge(store[c.id], c.edit))
    ensures c.DeleteDoc? ==> r.Keys == store.Keys - {c.id}
    ensures forall k :: k in store && k in r && k != Target(c) ==> r[k] == store[k]
  {
    match c
    case AddTask(t) => store[t.id := t]
    case UpdateStatus(id, s) => if id in store then store[id := store[id].(status := s)] else store
    case UpdateFields(id, p) => if id in store then store[id := Merge(store[id], p)] else store
    case DeleteDoc(id) => store - {id}
  }

  /** The id of the document a write addresses. */
  function Target(c: Command): string {
    match c
    case AddTask(t) => t.id
    case UpdateStatus(id, _) => id
    case UpdateFields(id, _) => id
    case DeleteDoc(id) => id
  }

  /** Each document is stored under its own id. */
  ghost predicate WellKeyed(store: Store) {
    forall k :: k in store ==> store[k].id == k
  }

  /** No two positions of the list hold the same id. */
  ghost predicate DistinctIds(tasks: seq<Task>) {
    forall i, j :: 0 <= i < j < |tasks| ==> tasks[i].id != tasks[j].id
  }

  /**
   * `tasks` is a listing of `store`: every listed task is the stored document,
   * every document is listed, and none is listed twice.
   */
  ghost predicate Mirrors(tasks: seq<Task>, store: Store) {
    && (forall i :: 0 <= i < |tasks| ==> tasks[i].id in store && store[tasks[i].id] == tasks[i])
    && (forall k :: k in store ==> exists i :: 0 <= i < |tasks| && tasks[i].id == k)
    && DistinctIds(tasks)
  }

  /** Every write keeps documents under their own ids. */
  lemma ApplyWellKeyed(store: Store, c: Command)
    requires WellKeyed(store)
    ensures WellKeyed(Apply(store, c))
  {
  }

  /** An edit never changes any document's status, and never adds or removes a document. */
  lemma EditKeepsStatus(store: Store, id: string, p: EditPayload)
    ensures Apply(store, UpdateFields(id, p)).Keys == store.Keys
    ensures forall k :: k in store ==> Apply(store, UpdateFields(id, p))[k].status == store[k].status
    ensures forall k :: k in store && k != id ==> Apply(store, UpdateFields(id, p))[k] == store[k]
  {
  }
}

=== FILE: tasks.dfy ===
/**
 * The task record held by the board and the form schema a new task must
 * satisfy before it is stored.
 */
module Tasks {
  import opened Wrappers

  datatype Status = ToDo | InProgress | Done
  datatype Priority = Low | Medium | High

  /** The text stored in a task document for each status. */
  function StatusName(s: Status): string {
    match s
    case ToDo => "To Do"
    case InProgress => "In Progress"
    case Done => "Done"
  }

  function PriorityName(p: Priority): string {
    match p
    case Low => "Low"
    case Medium => "Medium"
    case High => "High"
  }

  /** Reads a stored status back; anything outside the three names is not a status. */
  function ParseStatus(text: string): (r: Option<Status>)
    ensures r.Some? <==> text in {"To Do", "In Progress", "Done"}
    ensures r.Some? ==> StatusName(r.value) == text
  {
    if text == "To Do" then Some(ToDo)
    else if text == "In Progress" then Some(InProgress)
    else if text == "Done" then Some(Done)
    else None
  }

  function ParsePriority(text: string): (r: Option<Priority>)
    ensures r.Some? <==> text in {"Low", "Medium", "High"}
    ensures r.Some? ==> PriorityName(r.value) == text
  {
    if text == "Low" then Some(Low)
    else if text == "Medium" then Some(Medium)
    else if text == "High" then Some(High)
    else None
  }

  lemma StatusNameRoundTrip(s: Status)
    ensures ParseStatus(StatusName(s)) == Some(s)
  {
  }

  lemma PriorityNameRoundTrip(p: Priority)
    ensures ParsePriority(PriorityName(p)) == Some(p)
  {
  }

  /** The three status names are distinct, so a stored status names at most one column. */
  lemma StatusNameInjective(a: Status, b: Status)
    ensures StatusName(a) == StatusName(b) ==> a == b
  {
  }

  /**
   * A task document as listed from the store. The store is schemaless, so the
   * status and priority are whatever text was written (an absent field is
   * text outside the enums) and the title may be missing. A due date is the
   * day number it denotes, or None when it is absent, empty or unparsable.
   */
  datatype Task = Task(
    id: string,
    title: Option<string>,
    description: Option<string>,
    dueDate: Option<int>,
    priority: string,
    status: string,
    createdBy: string)

  /** The values a task form submits; a field left out of the form is None or empty. */
  datatype TaskForm = TaskForm(
    title: Option<string>,
    description: Option<string>,
    dueDate: Option<int>,
    priority: string,
    status: string)

  /** A form value that passed the schema, with priority and status read into the enums. */
  datatype TaskInput = TaskInput(
    title: string,
    description: Option<string>,
    dueDate: Option<int>,
    priority: Priority,
    status: Status)

  /** One schema complaint per failing field. */
  datatype Issue = TitleMissing | TitleEmpty | PriorityInvalid | StatusInvalid

  /**
   * The task schema: a title of at least one character, a priority among
   * Low/Medium/High and a status among To Do/In Progress/Done; description
   * and due date are optional.
   */
  function Validate(form: TaskForm): (r: Result<TaskInput, seq<Issue>>)
    ensures r.Success? <==>
      && form.title.Some? && |form.title.value| >= 1
      && form.priority in {"Low", "Medium", "High"}
      && form.status in {"To Do", "In Progress", "Done"}
    ensures r.Success? ==>
      && r.value.title == form.title.value
      && r.value.description == form.description
      && r.value.dueDate == form.dueDate
      && PriorityName(r.value.priority) == form.priority
      && StatusName(r.value.status) == form.status
    ensures r.Failure? ==> |r.error| > 0
    ensures r.Failure? ==>
      && (TitleMissing in r.error <==> form.title.None?)
      && (TitleEmpty in r.error <==> form.title == Some(""))
      && (PriorityInvalid in r.error <==> form.priority !in {"Low", "Medium", "High"})
      && (StatusInvalid in r.error <==> form.status !in {"To Do", "In Progress", "Done"})
  {
    var titleIssues :=
      if form.title.None? then [TitleMissing]
      else if |form.title.value| == 0 then [TitleEmpty]
      else [];
    var priority := ParsePriority(form.priority);
    var status := ParseStatus(form.status);
    var issues := titleIssues
      + (if priority.None? then [PriorityInvalid] else [])
      + (if status.None? then [StatusInvalid] else []);
    if |issues| == 0 then
      Success(TaskInput(form.title.value, form.description, form.dueDate, priority.value, status.value))
    else
      Failure(issues)
  }

  /** The form that carries exactly the given input. */
  function FormOf(d: TaskInput): TaskForm {
    TaskForm(Some(d.title), d.description, d.dueDate, PriorityName(d.priority), StatusName(d.status))
  }

  /** Every accepted form is the form of its parsed value. */
  lemma AcceptedFormRoundTrip(form: TaskForm)
    requires Validate(form).Success?
    ensures FormOf(Validate(form).value) == form
  {
  }

  /** A parsed value with a non-empty title validates back to itself. */
  lemma {:induction false} InputRoundTrip(d: TaskInput)
    requires |d.title| >= 1
    ensures Validate(FormOf(d)) == Success(d)
  {
    StatusNameRoundTrip(d.status);
    PriorityNameRoundTrip(d.priority);
  }
}

=== FILE: text.dfy ===
/** Text helpers: ASCII case folding and JavaScript's `String.prototype.includes`. */
module Text {

  /** `toLowerCase` restricted to ASCII: only 'A'..'Z' are changed. */
  function LowerChar(c: char): (d: char)
    ensures 'A' <= c <= 'Z' ==> 'a' <= d <= 'z' && d as int - c as int == 32
    ensures !('A' <= c <= 'Z') ==> d == c
  {
    if 'A' <= c <= 'Z' then (c as int + 32) as char else c
  }

  function Lower(s: string): (r: string)
    ensures |r| == |s|
    ensures forall i :: 0 <= i < |s| ==> r[i] == LowerChar(s[i])
  {
    seq(|s|, i requires 0 <= i < |s| => LowerChar(s[i]))
  }

  /** No upper-case ASCII letter remains after `Lower`. */
  ghost predicate IsLower(s: string) {
    forall i :: 0 <= i < |s| ==> !('A' <= s[i] <= 'Z')
  }

  lemma LowerIsLower(s: string)
    ensures IsLower(Lower(s))
  {
  }

  /** Folding twice is folding once, so a search term typed in any case matches the same titles. */
  lemma LowerIdempotent(s: string)
    ensures Lower(Lower(s)) == Lower(s)
  {
    assert forall i :: 0 <= i < |s| ==> LowerChar(LowerChar(s[i])) == LowerChar(s[i]);
  }

  /** `needle` occurs in `hay` starting at position `i`. */
  ghost predicate OccursAt(hay: string, needle: string, i: int) {
    0 <= i && i + |needle| <= |hay| && hay[i..i + |needle|] == needle
  }

  /** `hay.includes(needle)`: scans the start positions from left to right. */
  function Includes(hay: string, needle: string): (b: bool)
    ensures b <==> exists i :: OccursAt(hay, needle, i)
    decreases |hay|
  {
    if |needle| > |hay| then
      assert forall i :: !OccursAt(hay, needle, i);
      false
    else if needle <= hay then
      assert OccursAt(hay, needle, 0);
      true
    else
      var rest := Includes(hay[1..], needle);
      assert forall i :: OccursAt(hay[1..], needle, i) <==> OccursAt(hay, needle, i + 1) by {
        forall i ensures OccursAt(hay[1..], needle, i) <==> OccursAt(hay, needle, i + 1) {
          if 0 <= i && i + |needle| <= |hay[1..]| {
            assert hay[1..][i..i + |needle|] == hay[i + 1..i + 1 + |needle|];
          }
        }
      }
      assert !OccursAt(hay, needle, 0);
      assert forall i :: OccursAt(hay, needle, i) && i != 0 ==> OccursAt(hay[1..], needle, i - 1);
      rest
  }

  /** Every string includes the empty string. */
  lemma IncludesEmpty(hay: string)
    ensures Includes(hay, "")
  {
    assert OccursAt(hay, "", 0);
  }
}

=== FILE: walkthrough.dfy ===
/** An end-to-end example: create a task, see it in its column, drag it to Done. */
module Walkthrough {
  import opened Wrappers
  import opened Tasks
  import opened Session
  import opened TaskStore
  import opened BoardView
  import opened ActivityLog
  import opened TaskActions

  const Ann := User("u1", Some("ann@example.com"), Some("Ann"))
  const WriteSpecForm := TaskForm(Some("Write spec"), None, Some(19723), "High", "To Do")
  const WriteSpec := Task("t1", Some("Write spec"), None, Some(19723), "High", "To Do", "u1")

  /** Submitting the form writes the task under the assigned id and logs its creation. */
  lemma CreateWriteSpec()
    ensures SubmitTask([], WriteSpecForm, Some(Ann), "t1", true)
      == Effects([], Some(AddTask(WriteSpec)), Some("Task \"Write spec\" created."))
  {
    assert Validate(WriteSpecForm) == Success(TaskInput("Write spec", None, Some(19723), High, ToDo));
    assert PriorityName(High) == "High" && StatusName(ToDo) == "To Do";
    assert "Task \"" + "Write spec" + "\" created." == "Task \"Write spec\" created.";
  }

  /** On the initial view, every task on the board with a title is shown in the column of its status. */
  lemma TitledTaskShown(tasks: seq<Task>, x: Task, i: int)
    requires 0 <= i < 3
    requires x in tasks
    requires x.title.Some? && x.status == StatusName(ColumnStatuses[i])
    ensures x in Columns(tasks, InitialView)[i]
  {
    EmptySearchKeepsTitled(tasks, InitialView, x);
    ColumnContents(tasks, InitialView, i);
    assert x in multiset(FilteredTasks(tasks, InitialView));
    assert x in multiset(Columns(tasks, InitialView)[i]);
  }

  /** The move message for the scenario, spelled out. */
  lemma WriteSpecMoveMessage()
    ensures MoveMessage(Some("Write spec"), Done, Ann) == "Moved \"Write spec\" to Done by Ann"
  {
    assert ActorLabel(Ann) == Some("Ann");
    assert MoveMessage(Some("Write spec"), Done, Ann) == "Moved \"" + "Write spec" + "\" to " + "Done" + " by " + "Ann";
  }

  /** Dragging it to Done relabels it and logs the move under the user's display name. */
  lemma MoveWriteSpec()
    ensures MoveTask([WriteSpec], false, Some(Ann), "t1", Done, true)
      == Effects([WriteSpec.(status := "Done")], Some(UpdateStatus("t1", "Done")), Some("Moved \"Write spec\" to Done by Ann"))
  {
    assert Find([WriteSpec], "t1") == Some(WriteSpec);
    var e := MoveTask([WriteSpec], false, Some(Ann), "t1", Done, true);
    assert e.tasks == [WriteSpec.(status := "Done")];
    WriteSpecMoveMessage();
  }

  /** Create, show, drag: the steps above chained, with the store listing the created task. */
  lemma CreateThenMove()
    ensures var created := SubmitTask([], WriteSpecForm, Some(Ann), "t1", true);
      && created.write == Some(AddTask(WriteSpec))
      && Mirrors([WriteSpec], Apply(map[], created.write.value))
      && WriteSpec in Columns([WriteSpec], InitialView)[0]
      && var moved := MoveTask([WriteSpec], false, Some(Ann), "t1", Done, true);
      && moved.logMessage == Some("Moved \"Write spec\" to Done by Ann")
      && WriteSpec.(status := "Done") in Columns(moved.tasks, InitialView)[2]
  {
    CreateWriteSpec();
    var store := Apply(map[], AddTask(WriteSpec));
    assert store == map["t1" := WriteSpec];
    assert [WriteSpec][0].id == "t1";
    assert Mirrors([WriteSpec], store);
    TitledTaskShown([WriteSpec], WriteSpec, 0);
    MoveWriteSpec();
    TitledTaskShown([WriteSpec.(status := "Done")], WriteSpec.(status := "Done"), 2);
  }
}

=== FILE: wrappers.dfy ===
/** Optional values and success/failure results shared by every module. */
module Wrappers {

  /** A value that may be absent (JavaScript's `undefined`/`null`). */
  datatype Option<+T> = None | Some(value: T)

  /** The outcome of an operation that either succeeds or throws. */
  datatype Result<+R, +E> = Success(value: R) | Failure(error: E)
}
